=== FILE: README.md ===
# Vehicle trip simulator — a Dafny model

This project models the trip simulator of a synthetic vehicle-telemetry
generator, `simulate_trip` in `generate_vehicle_data.py`. The simulator
advances a vehicle one simulated second ("tick") at a time, in a fixed order:

1. The target speed is redrawn once a minute from the scenario's range.
2. The driver's throttle reacts to the gap between speed and target.
3. The speed is integrated.
4. The gear is read from a threshold table, with the "inefficient" driver's
   wrong-gear override.
5. The RPM comes from the gearing formula, or from idle revving near standstill.
6. The engine load is computed with noise, plus the "lugging" override.
7. The coolant, intake-air and catalyst temperatures are updated.
8. The odometer advances and one telemetry row is emitted.

The model follows the program's structure:

- `Numeric` holds Python's `min`/`max` and `random.uniform`.
- `VehicleConstants` holds the physics constants.
- `Scenarios` holds the scenario tag and the target-speed policy.
- `Driver` holds the throttle controller and the speed integration.
- `Powertrain` holds the gear table, the RPM and the engine load.
- `Thermal` holds the three temperature tracks.
- `Trip` holds the per-tick state, the one-tick function `Step` and the state
  after `t` ticks, `StateAt`.
- `Telemetry` holds the output row and the trip loop `Simulate`.

Randomness is injected. Every `random.uniform(a, b)` of the source becomes
`Uniform(a, b, u)`, that is `a + (b - a) * u`, where `u` is a unit draw in
[0, 1]. This is CPython's own definition of `uniform`. Each tick receives one
`Draw(target, throttle, load)` of three unit draws. A tick whose branches take
no draw leaves that draw unused. Once the draws are fixed, the trip is a pure
function of the scenario, the duration and the draws.

Arithmetic uses Dafny's exact `real`. Every operation in the simulator is
`+ - * /` by rational constants; pi is the literal `3.14159`. So the model
computes exactly what the formulas say, without floating-point rounding.

Main results:

- Every state of every trip lies in its ranges (`Trip.Inv`):
  - speed is in [0, 200) km/h;
  - throttle is in [0, 100];
  - load is in [10, 100];
  - RPM is in [800, 7000];
  - gear is in [1, 6];
  - coolant is at most 90.75 C;
  - intake temperature is at least 20 C;
  - catalyst temperature is in [100, 950] C;
  - distance is non-negative.
- Distance and coolant never decrease over a trip.
- Outside the wrong-gear anomaly, the gear is exactly the highest gear whose
  threshold the speed exceeds.
- The lugging override at `generate_vehicle_data.py:106` can never fire.
  Gears above 3 need more than 50 km/h, but the lugging band ends at 30 km/h.
  The model keeps the branch as written and proves it dead
  (`Powertrain.LuggingNeverFires`).
- The `MAX_RPM` clamp never acts either. Below 200 km/h, the gear the selector
  picks keeps the gearing formula under the redline
  (`Powertrain.GearingBelowRedline`).
- An idle trip has the following properties on every tick:
  - the target speed is 0;
  - speed never exceeds 6 km/h;
  - the gear is 1;
  - RPM never exceeds 2800.
- A highway car that has reached 74.5 km/h never drops below it again:
  its target is at least 80 km/h, so below 75 km/h the driver always
  accelerates.

The docstring of `simulate_trip` (`generate_vehicle_data.py:26-29`) lists five
scenario names, but the code accepts any string and gives every tag other than
`highway`, `city` and `idle` the `mixed` target range. The model does the same:
a tag other than the six known ones becomes the `Unrecognized(tag)` scenario.

## Model

| member | source | states |
|---|---|---|
| VehicleConstants.KphToMs | generate_vehicle_data.py:92 | the m/s value times 3.6 gives back the km/h value; a non-negative speed converts to a value between 0 and itself |
| Scenarios.Parse | generate_vehicle_data.py:46-54 | classifying a tag gives a canonical scenario whose name is that tag; strings other than the six known tags become `Unrecognized` and take the mixed range |
| Scenarios.ParseName | generate_vehicle_data.py:46-54 | parsing the name of any canonical scenario gives the scenario back, so tags and scenarios correspond one to one |
| Scenarios.NextTarget | generate_vehicle_data.py:45-54 | off the minute (`t % 60 != 0`) the target is unchanged; on the minute it is in [80,120] for highway, [0,50] for city, exactly 0 for idle, and [0,100] for every other tag |
| Scenarios.TargetRangeReachable | generate_vehicle_data.py:46-54 | on the minute, every value of the scenario's range is produced by some unit draw, so the range stated for `NextTarget` is exact |
| Driver.AccelStep | generate_vehicle_data.py:59-65 | the throttle gained per tick is 10 points for the aggressive scenario and 2.5 points otherwise |
| Driver.NextThrottle | generate_vehicle_data.py:56-69 | a throttle in [0,100] stays there; more than 5 km/h below target it rises by one step, capped at 100; more than 5 km/h above target it is exactly 0; otherwise it moves by at most 2 points |
| Driver.NextSpeed | generate_vehicle_data.py:71-78 | speed is never negative; from [0,200) with throttle in (0,100] it strictly increases, by at most throttle/100, and stays below 200; with no throttle it drops by 0.5, stopping at 0 |
| Driver.GainBelowTopSpeed | generate_vehicle_data.py:72-74 | for every speed and throttle, one acceleration step from [0,200) with throttle in (0,100] lands strictly between the old speed and 200, gaining at most throttle/100 km/h |
| Powertrain.ScanGear | generate_vehicle_data.py:81-84 | scanning the thresholds from index i on returns the start gear when none is exceeded; otherwise it returns the highest i+1 whose threshold is exceeded |
| Powertrain.TableGear | generate_vehicle_data.py:81-84 | the table gear is in [1,6], exceeds the threshold of its own gear (when above 1), and exceeds no higher threshold |
| Powertrain.TableGearUnique | generate_vehicle_data.py:81-84 | at most one gear meets the table's characterisation for a given speed |
| Powertrain.TableGearBands | generate_vehicle_data.py:19 | the table gear is 6 above 90 km/h, 5 above 70, 4 above 50, 3 above 30, 2 above 15, and 1 otherwise |
| Powertrain.TableGearMonotone | generate_vehicle_data.py:81-84 | a higher speed never gives a lower table gear |
| Powertrain.SelectGear | generate_vehicle_data.py:80-88 | the gear is in [1,6]; in the inefficient scenario with 20 < speed < 50 it is 1; otherwise it is the table gear; a gear above 3 implies speed above 50 |
| Powertrain.RpmPerKph | generate_vehicle_data.py:96-97 | the gearing factor of every gear is positive |
| Powertrain.GearingIsLinear | generate_vehicle_data.py:92-97 | the gearing formula is speed times the gear's factor |
| Powertrain.Rpm | generate_vehicle_data.py:92-98 | below 1 km/h the RPM is 800 plus 20 per throttle point, in [800,2800] for a valid throttle; at 1 km/h and above it is in [800,7000]: exactly 800 when the gearing formula is below 800, exactly 7000 when it is above 7000, and otherwise the value the gearing equation gives |
| Powertrain.RpmMonotoneInSpeed | generate_vehicle_data.py:93-98 | within one gear, a moving car's RPM never falls as its speed rises |
| Powertrain.GearingBelowRedline | generate_vehicle_data.py:80-98 | below 200 km/h, with the gear the selector picks, the gearing formula stays below 7000, so the upper clamp never acts |
| Powertrain.EngineLoad | generate_vehicle_data.py:100-107 | the load is in [10,100]; under the lugging condition it is 90; otherwise it lies in the band base load ± 5, limited to [10,100] |
| Powertrain.LuggingNeverFires | generate_vehicle_data.py:81-107 | with the gear the selector picks, the lugging condition is false for every scenario and speed |
| Thermal.NextCoolant | generate_vehicle_data.py:110-113 | the coolant never decreases; it strictly rises while below 90; at or above 90 it is unchanged; at most 7000 rpm it never passes 90.75 |
| Thermal.IntakeTemp | generate_vehicle_data.py:115-117 | the intake is at least 20 and at least the heat-soak formula; when above 20 it equals that formula; with airflow it is never above the standstill heat soak |
| Thermal.NextCatalyst | generate_vehicle_data.py:119-121 | the new catalyst temperature lies between the old one and its target, and closes exactly 1% of the gap |
| Thermal.CatalystTargetRange | generate_vehicle_data.py:120 | over [800,7000] rpm and [10,100] load, the catalyst target is in [460,950] |
| Trip.Step | generate_vehicle_data.py:44-124 | one tick keeps every range invariant and redraws the target only on the minute; the gear follows the table except in the anomaly; lugging never applies; distance and coolant do not fall; the catalyst moves towards its target |
| Trip.InitialInv | generate_vehicle_data.py:32-42 | the initial state (stopped, 800 rpm, 25 C coolant, 20 C intake, 100 C catalyst) satisfies every invariant |
| Trip.StepKeepsScenarioInv | generate_vehicle_data.py:45-98 | once a target has been drawn it stays in the scenario's range; an idle trip keeps target 0, speed at most 6, gear 1 and at most 2800 rpm |
| Trip.StateAt | generate_vehicle_data.py:32-124 | every state of every trip satisfies the range invariants and the scenario invariant |
| Trip.StateAtStart | generate_vehicle_data.py:32-42 | a trip starts from the initial state |
| Trip.StateAtNext | generate_vehicle_data.py:44-124 | the state after tick t is one tick applied to the state before it |
| Trip.DistanceNonDecreasing | generate_vehicle_data.py:123-124 | the trip distance after i ticks is at most the distance after any j ≥ i ticks |
| Trip.CoolantNonDecreasing | generate_vehicle_data.py:110-113 | the coolant after i ticks is at most the coolant after any j ≥ i ticks |
| Trip.IdleStep | generate_vehicle_data.py:51-98 | one idle tick from at most 6 km/h with target 0 keeps the car at most 6 km/h, in 1st gear, at most 2800 rpm |
| Trip.HighwayFloor | generate_vehicle_data.py:46-78 | one highway tick from at least 74.5 km/h, with the target in the highway range, ends at least 74.5 km/h |
| Trip.HighwaySpeedFloor | generate_vehicle_data.py:44-78 | over a highway trip, once the speed is at least 74.5 km/h after some tick, it is at least 74.5 km/h after every later tick |
| Trip.HighwayClimbIgnoresDraws | generate_vehicle_data.py:46-78 | below 75 km/h, with the target in the highway range or about to be redrawn, a highway tick gives the same new speed whatever the draws |
| Telemetry.EmittedRow | generate_vehicle_data.py:126-155 | the row of tick t is stamped t, lies within the row ranges, and follows the gear table or the wrong-gear anomaly; for idle it keeps the near-stop bounds |
| Telemetry.Simulate | generate_vehicle_data.py:25-157 | for a canonical scenario (the parse of the caller's tag), a non-positive duration gives no rows; otherwise there is exactly one row per tick; row t is stamped t and is the snapshot of the state after tick t |
| Telemetry.TripRows | generate_vehicle_data.py:44-157 | all rows of a trip are in range; distance and coolant are non-decreasing across rows; the gear follows the table except in the wrong-gear anomaly, where it is 1; an idle trip stays near standstill |

## Left out

- `main` and `ensure_dir` (`generate_vehicle_data.py:21-23`, `159-183`) are left out. They cover the choice of scenario per week, the timestamps, directory creation and CSV writing, which are batch plumbing and I/O.
- The pseudo-random generator is left out. Each draw is a parameter in [0, 1]. A draw is supplied for every tick, even where the source draws nothing. Seeded reproducibility is a property of the library, and it holds trivially for a pure function of the draws.
- `round(..., 1)` and `int(rpm)` in the row are left out, and so is the pandas `DataFrame`. Rows keep the exact values; these calls only format the output.
- Python floating-point rounding is left out. The model computes in exact `real` arithmetic.
- `dashboard.py` is left out. It is a display script, and its fuel estimate is presentation.
- The mean speed of an idle trip is left out. It depends on the distribution of the draws, not on every possible draw. The model proves a different property instead, one that holds for all draws: an idle trip never exceeds 6 km/h.
- That highway trips average faster than idle ones is only partly proved. Once a highway car reaches 74.5 km/h, it never drops below that again (`Trip.HighwaySpeedFloor`); together with the idle bound of 6 km/h, this settles every tick after that point. The warm-up climb from standstill to 74.5 km/h is not proved. During the climb the throttle is always in its behind-target branch, which draws nothing, and neither the target draw nor the load draw affects speed. So the climb's speed is the same for every draw (`Trip.HighwayClimbIgnoresDraws`), while its load and catalyst temperature still vary. Proving the climb's length would mean bounding about a hundred ticks of real arithmetic.
- `Trip.Initial` gives `gear` the value 1. The source leaves `gear` unbound until the first tick. This value, and the initial `rpm`, `load` and `intake`, are overwritten before any of them is read.
- The default argument `scenario='mixed'` (`generate_vehicle_data.py:25`) is left out. `Telemetry.Simulate` always takes a scenario, and a caller that relies on the default passes `Mixed`.

=== FILE: constants.dfy ===
/** The physics constants of the trip simulator (generate_vehicle_data.py:14-19)
    and the unit conversion it uses for both RPM and distance. */
module VehicleConstants {

  const IdleRpm: real := 800.0
  const MaxRpm: real := 7000.0
  /** Gear ratios of 1st to 6th gear. */
  const GearRatios: seq<real> := [3.5, 2.0, 1.4, 1.0, 0.8, 0.6]
  const FinalDrive: real := 3.5
  /** Tyre radius in metres. */
  const TireRadius: real := 0.3
  /** Speed (km/h) that must be exceeded before gear `i + 1` is chosen. */
  const MinSpeedForGear: seq<int> := [0, 15, 30, 50, 70, 90]
  /** The literal the RPM formula uses for pi. */
  const Pi: real := 3.14159
  const TopGear: int := 6

  /** km/h to m/s: `speed * 1000 / 3600`. */
  function KphToMs(kph: real): (ms: real)
    ensures kph >= 0.0 ==> 0.0 <= ms <= kph
    ensures ms * 3.6 == kph
  {
    kph * 1000.0 / 3600.0
  }
}

=== FILE: driver.dfy ===
/** DriverController and LongitudinalDynamics: the throttle the simulated
    driver applies and the speed it produces (generate_vehicle_data.py:56-78). */
module Driver {
  import opened Numeric
  import opened Scenarios

  predicate IsThrottle(x: real)
  {
    0.0 <= x <= 100.0
  }

  /** Throttle gained per tick while the car is more than 5 km/h below target:
      `5 * accel_factor`, with the factor 2.0 when aggressive and 0.5 otherwise. */
  function AccelStep(sc: Scenario): (step: real)
    ensures step == (if sc.Aggressive? then 10.0 else 2.5)
  {
    5.0 * (if sc.Aggressive? then 2.0 else 0.5)
  }

  /** The throttle for this tick. `u` is the unit draw behind the
      `random.uniform(-2, 2)` jitter of the hold branch. */
  function NextThrottle(sc: Scenario, speed: real, target: real, throttle: real, u: real): (r: real)
    requires IsUnit(u)
    // an in-range throttle stays in range
    ensures IsThrottle(throttle) ==> IsThrottle(r)
    // behind the target: the pedal goes down by one step, capped at full throttle
    ensures target - speed > 5.0 && IsThrottle(throttle) ==>
              throttle <= r <= throttle + AccelStep(sc) && (r == 100.0 || r == throttle + AccelStep(sc))
    // ahead of the target: full release
    ensures target - speed < -5.0 ==> r == 0.0
    // near the target: a jitter of at most 2 points
    ensures -5.0 <= target - speed <= 5.0 && IsThrottle(throttle) ==>
              IsThrottle(r) && -2.0 <= r - throttle <= 2.0
  {
    var diff := target - speed;
    if diff > 5.0 then
      Min(100.0, throttle + AccelStep(sc))
    else if diff < -5.0 then
      0.0
    else
      Max(0.0, Min(100.0, throttle + Uniform(-2.0, 2.0, u)))
  }

  /** The speed (km/h) after one tick at the given throttle: accelerate with
      diminishing returns towards 200 km/h, or coast down by 0.5 km/h, never
      below standstill. */
  function NextSpeed(speed: real, throttle: real): (r: real)
    ensures r >= 0.0
    // on the throttle the car gains speed but never reaches 200 km/h
    ensures 0.0 <= speed < 200.0 && 0.0 < throttle <= 100.0 ==> speed < r < 200.0
    // and a tick adds at most one km/h per hundred throttle points
    ensures 0.0 <= speed < 200.0 && 0.0 < throttle <= 100.0 ==> r - speed <= throttle / 100.0
    // off the throttle it loses exactly 0.5 km/h, stopping at zero
    ensures throttle <= 0.0 && speed >= 0.5 ==> r == speed - 0.5
    ensures throttle <= 0.0 && speed < 0.5 ==> r == 0.0
  {
    if throttle > 0.0 then
      var acceleration := (throttle / 10.0) * (1.0 - speed / 200.0);
      var accelerated := speed + acceleration * 0.1;
      GainBelowTopSpeed(speed, throttle);
      Max(0.0, accelerated)
    else
      Max(0.0, speed - 0.5)
  }

  /** From [0, 200) km/h with a throttle in (0, 100], the acceleration step
      keeps speed strictly between its old value and 200. */
  lemma GainBelowTopSpeed(speed: real, throttle: real)
    ensures 0.0 <= speed < 200.0 && 0.0 < throttle <= 100.0 ==>
            var r := speed + (throttle / 10.0) * (1.0 - speed / 200.0) * 0.1;
            speed < r < 200.0 && r - speed <= throttle / 100.0
  {
    if 0.0 <= speed < 200.0 && 0.0 < throttle <= 100.0 {
      var gap := 200.0 - speed;
      var share := gap * (throttle / 100.0);
      GainIsShareOfGap(speed, throttle);
      ScaleByFraction(gap, throttle / 100.0);
      assert 0.0 < share <= gap;
      ScaleByFraction(throttle / 100.0, gap / 200.0);
      assert share / 200.0 == (throttle / 100.0) * (gap / 200.0);
    }
  }

  /** The acceleration step is a throttle-sized share of the gap to 200 km/h. */
  lemma GainIsShareOfGap(speed: real, throttle: real)
    ensures (throttle / 10.0) * (1.0 - speed / 200.0) * 0.1 == (200.0 - speed) * (throttle / 100.0) / 200.0
  {
  }
}

=== FILE: numeric.dfy ===
/** Real-number helpers shared by the simulator's components: Python's
    `min`/`max` on two numbers and `random.uniform` with its draw made explicit. */
module Numeric {

  /** Python's `min(a, b)`. */
  function Min(a: real, b: real): (r: real)
    ensures r <= a && r <= b
    ensures r == a || r == b
  {
    if a <= b then a else b
  }

  /** Python's `max(a, b)`. */
  function Max(a: real, b: real): (r: real)
    ensures r >= a && r >= b
    ensures r == a || r == b
  {
    if a >= b then a else b
  }

  /** A draw of the unit random source, `random.random()`; the closed upper end
      covers the rounding that lets `random.uniform(a, b)` return `b`. */
  predicate IsUnit(u: real)
  {
    0.0 <= u <= 1.0
  }

  /** `random.uniform(a, b)`, which is `a + (b - a) * random.random()`.
      Every caller passes literal bounds, which keeps the product linear. */
  function Uniform(a: real, b: real, u: real): real
    requires a <= b && IsUnit(u)
  {
    a + (b - a) * u
  }

  /** Scaling a non-negative quantity by a fraction in [0, 1] keeps it within [0, itself]. */
  lemma ScaleByFraction(x: real, f: real)
    requires x >= 0.0 && IsUnit(f)
    ensures 0.0 <= x * f <= x
  {
  }
}

=== FILE: powertrain.dfy ===
/** GearSelector and PowertrainModel: gear from the speed threshold table,
    engine RPM and engine load, each with the scenario's anomaly hook
    (generate_vehicle_data.py:80-107). */
module Powertrain {
  import opened Numeric
  import opened VehicleConstants
  import opened Scenarios
  import opened Driver

  /** Whether the speed exceeds the threshold of gear `j + 1`. */
  predicate Exceeds(speed: real, j: int)
    requires 0 <= j < TopGear
  {
    speed > MinSpeedForGear[j] as real
  }

  /** `g` is the highest gear whose threshold the speed exceeds, or 1 when none is. */
  predicate IsTableGear(speed: real, g: int)
  {
    && 1 <= g <= TopGear
    && (g > 1 ==> Exceeds(speed, g - 1))
    && forall j :: g <= j < TopGear ==> !Exceeds(speed, j)
  }

  /** The `for i, limit in enumerate(MIN_SPEED_FOR_GEAR)` scan from index `i`
      on, `gear` being the value the loop variable holds on entry. */
  function ScanGear(speed: real, i: nat, gear: int): (g: int)
    requires i <= TopGear
    ensures (forall j :: i <= j < TopGear ==> !Exceeds(speed, j)) ==> g == gear
    ensures (exists j :: i <= j < TopGear && Exceeds(speed, j)) ==>
              && i < g <= TopGear
              && Exceeds(speed, g - 1)
              && forall j :: g <= j < TopGear ==> !Exceeds(speed, j)
    decreases TopGear - i
  {
    if i == TopGear then gear
    else ScanGear(speed, i + 1, if Exceeds(speed, i) then i + 1 else gear)
  }

  /** The gear the threshold table gives, before any anomaly override. */
  function TableGear(speed: real): (g: int)
    ensures IsTableGear(speed, g)
  {
    ScanGear(speed, 0, 1)
  }

  /** The table has one answer per speed. */
  lemma TableGearUnique(speed: real, g1: int, g2: int)
    requires IsTableGear(speed, g1) && IsTableGear(speed, g2)
    ensures g1 == g2
  {
  }

  /** The table, spelled out as the speed bands of each gear. */
  lemma TableGearBands(speed: real)
    ensures TableGear(speed) ==
      if speed > 90.0 then 6
      else if speed > 70.0 then 5
      else if speed > 50.0 then 4
      else if speed > 30.0 then 3
      else if speed > 15.0 then 2
      else 1
  {
    var g := TableGear(speed);
    var b :=
      if speed > 90.0 then 6
      else if speed > 70.0 then 5
      else if speed > 50.0 then 4
      else if speed > 30.0 then 3
      else if speed > 15.0 then 2
      else 1;
    assert IsTableGear(speed, b);
    TableGearUnique(speed, g, b);
  }

  /** A faster car is never in a lower table gear. */
  lemma TableGearMonotone(s1: real, s2: real)
    requires s1 <= s2
    ensures TableGear(s1) <= TableGear(s2)
  {
  }

  /** The wrong-gear anomaly: an inefficient driver stuck in 1st between 20 and 50 km/h. */
  predicate WrongGearAnomaly(sc: Scenario, speed: real)
  {
    sc.Inefficient? && speed > 20.0 && speed < 50.0
  }

  /** The gear for this tick: the table gear, unless the wrong-gear anomaly forces 1st. */
  function SelectGear(sc: Scenario, speed: real): (g: int)
    ensures 1 <= g <= TopGear
    ensures !WrongGearAnomaly(sc, speed) ==> IsTableGear(speed, g)
    ensures WrongGearAnomaly(sc, speed) ==> g == 1
    // 4th gear and above are only reached beyond 50 km/h
    ensures g > 3 ==> speed > 50.0
  {
    var g := TableGear(speed);
    if WrongGearAnomaly(sc, speed) then 1 else g
  }

  /** RPM by the gearing formula: wheel speed times final drive and gear ratio. */
  function GearingRpm(speed: real, gear: int): real
    requires 1 <= gear <= TopGear
  {
    (KphToMs(speed) * 60.0 * FinalDrive * GearRatios[gear - 1]) / (2.0 * Pi * TireRadius)
  }

  /** Engine RPM per km/h in a gear. */
  function RpmPerKph(gear: int): (k: real)
    requires 1 <= gear <= TopGear
    ensures k > 0.0
  {
    (1000.0 / 3600.0 * 60.0 * FinalDrive * GearRatios[gear - 1]) / (2.0 * Pi * TireRadius)
  }

  /** The gearing formula is proportional to speed within a gear. */
  lemma GearingIsLinear(speed: real, gear: int)
    requires 1 <= gear <= TopGear
    ensures GearingRpm(speed, gear) == speed * RpmPerKph(gear)
  {
  }

  /** Engine RPM: revving on the spot below 1 km/h, else the gearing formula
      limited to the idle..redline range. */
  function Rpm(speed: real, gear: int, throttle: real): (r: real)
    requires 1 <= gear <= TopGear
    ensures speed >= 1.0 ==> IdleRpm <= r <= MaxRpm
    ensures speed < 1.0 && IsThrottle(throttle) ==> IdleRpm <= r <= IdleRpm + 2000.0
    // below 1 km/h each throttle point adds 20 rpm
    ensures speed < 1.0 ==> r - IdleRpm == 20.0 * throttle
    // below idle the formula is lifted to exactly idle, above redline cut to exactly redline
    ensures speed >= 1.0 && GearingRpm(speed, gear) < IdleRpm ==> r == IdleRpm
    ensures speed >= 1.0 && GearingRpm(speed, gear) > MaxRpm ==> r == MaxRpm
    // inside the idle..redline range the gearing equation holds exactly
    ensures speed >= 1.0 && IdleRpm <= GearingRpm(speed, gear) <= MaxRpm ==>
              r * (2.0 * Pi * TireRadius) == KphToMs(speed) * 60.0 * FinalDrive * GearRatios[gear - 1]
  {
    if speed < 1.0 then
      IdleRpm + (throttle * 20.0)
    else
      var geared := GearingRpm(speed, gear);
      Max(IdleRpm, Min(MaxRpm, geared))
  }

  /** Within a gear, RPM never falls as the moving car speeds up. */
  lemma RpmMonotoneInSpeed(s1: real, s2: real, gear: int, throttle: real)
    requires 1.0 <= s1 <= s2 && 1 <= gear <= TopGear
    ensures Rpm(s1, gear, throttle) <= Rpm(s2, gear, throttle)
  {
    GearingIsLinear(s1, gear);
    GearingIsLinear(s2, gear);
    var k := RpmPerKph(gear);
    assert (s2 - s1) * k >= 0.0;
    assert s2 * k - s1 * k == (s2 - s1) * k;
  }

  /** With the gear the selector picks, the gearing formula stays below the
      redline for every speed under 200 km/h, so the upper clamp never acts. */
  lemma GearingBelowRedline(sc: Scenario, speed: real)
    requires 0.0 <= speed < 200.0
    ensures GearingRpm(speed, SelectGear(sc, speed)) < MaxRpm
  {
    var g := SelectGear(sc, speed);
    GearingIsLinear(speed, g);
    if WrongGearAnomaly(sc, speed) {
      assert speed < 50.0;
    } else {
      TableGearBands(speed);
    }
    assert speed * RpmPerKph(g) < MaxRpm;
  }

  /** The lugging anomaly: high load in a high gear at low speed. */
  predicate Lugging(sc: Scenario, speed: real, gear: int)
  {
    sc.Inefficient? && speed > 10.0 && speed < 30.0 && gear > 3
  }

  /** Load before noise: throttle-driven with a small speed term. */
  function BaseLoad(throttle: real, speed: real): real
  {
    (throttle * 0.8) + (speed * 0.1)
  }

  /** Engine load: base load plus `random.uniform(-5, 5)` noise drawn from `u`,
      limited to 10..100, unless the lugging anomaly forces 90. */
  function EngineLoad(sc: Scenario, speed: real, gear: int, throttle: real, u: real): (r: real)
    requires IsUnit(u)
    ensures 10.0 <= r <= 100.0
    ensures Lugging(sc, speed, gear) ==> r == 90.0
    // otherwise the load lies in the noise band around the base load, limited to 10..100
    ensures !Lugging(sc, speed, gear) ==>
              Min(100.0, Max(10.0, BaseLoad(throttle, speed) - 5.0)) <= r
              <= Max(10.0, Min(100.0, BaseLoad(throttle, speed) + 5.0))
  {
    var baseLoad := BaseLoad(throttle, speed);
    var load := Min(100.0, Max(10.0, baseLoad + Uniform(-5.0, 5.0, u)));
    if Lugging(sc, speed, gear) then 90.0 else load
  }

  /** The lugging override can never fire: 4th gear and above need more than
      50 km/h, and the lugging band ends at 30 km/h. */
  lemma LuggingNeverFires(sc: Scenario, speed: real)
    ensures !Lugging(sc, speed, SelectGear(sc, speed))
  {
    var g := SelectGear(sc, speed);
    if g > 3 {
      assert speed > 50.0;
    }
  }
}

=== FILE: scenario.dfy ===
/** ScenarioProfile: the scenario tag and the target-speed policy it selects
    (generate_vehicle_data.py:45-54). */
module Scenarios {
  import opened Numeric

  /** The tag passed to the simulator. The source compares a string against
      literals; any other string falls through to the `mixed` policy. */
  datatype Scenario =
    | City
    | Highway
    | Mixed
    | Aggressive
    | Inefficient
    | Idle
    | Unrecognized(tag: string)

  const KnownTags: set<string> := {"city", "highway", "mixed", "aggressive", "inefficient", "idle"}

  /** The string the source would have been given for this scenario. */
  function Name(sc: Scenario): string
  {
    match sc
    case City => "city"
    case Highway => "highway"
    case Mixed => "mixed"
    case Aggressive => "aggressive"
    case Inefficient => "inefficient"
    case Idle => "idle"
    case Unrecognized(tag) => tag
  }

  /** An `Unrecognized` tag is never one of the known names. */
  predicate Canonical(sc: Scenario)
  {
    sc.Unrecognized? ==> sc.tag !in KnownTags
  }

  /** Classifies a tag the way the string comparisons of the source do. */
  function Parse(tag: string): (sc: Scenario)
    ensures Canonical(sc)
    ensures Name(sc) == tag
  {
    if tag == "city" then City
    else if tag == "highway" then Highway
    else if tag == "mixed" then Mixed
    else if tag == "aggressive" then Aggressive
    else if tag == "inefficient" then Inefficient
    else if tag == "idle" then Idle
    else Unrecognized(tag)
  }

  lemma ParseName(sc: Scenario)
    requires Canonical(sc)
    ensures Parse(Name(sc)) == sc
  {
    match sc
    case Unrecognized(tag) =>
      assert tag !in KnownTags;
    case _ =>
  }

  /** Ticks between two draws of the target speed. */
  const ResamplePeriod: nat := 60

  /** The values a freshly drawn target speed can take for a scenario. */
  predicate InTargetRange(sc: Scenario, x: real)
  {
    match sc
    case Highway => 80.0 <= x <= 120.0
    case City => 0.0 <= x <= 50.0
    case Idle => x == 0.0
    case _ => 0.0 <= x <= 100.0
  }

  /** The target speed in force during tick `t`: redrawn on every whole minute,
      otherwise carried over. `u` is the unit draw behind `random.uniform`. */
  function NextTarget(sc: Scenario, t: nat, target: real, u: real): (r: real)
    requires IsUnit(u)
    ensures t % ResamplePeriod != 0 ==> r == target
    ensures t % ResamplePeriod == 0 ==> InTargetRange(sc, r)
  {
    if t % ResamplePeriod == 0 then
      match sc
      case Highway => Uniform(80.0, 120.0, u)
      case City => Uniform(0.0, 50.0, u)
      case Idle => 0.0
      case _ => Uniform(0.0, 100.0, u)
    else
      target
  }

  /** Every value of the scenario's range is drawn by some unit draw. */
  lemma TargetRangeReachable(sc: Scenario, t: nat, target: real, x: real)
    requires t % ResamplePeriod == 0
    requires InTargetRange(sc, x)
    ensures exists u :: IsUnit(u) && NextTarget(sc, t, target, u) == x
  {
    var u: real;
    match sc {
    case Highway =>
      u := (x - 80.0) / 40.0;
      assert Uniform(80.0, 120.0, u) == 80.0 + 40.0 * u == x;
    case City =>
      u := x / 50.0;
      assert Uniform(0.0, 50.0, u) == 50.0 * u == x;
    case Idle =>
      u := 0.0;
    case _ =>
      u := x / 100.0;
      assert Uniform(0.0, 100.0, u) == 100.0 * u == x;
    }
    assert IsUnit(u) && NextTarget(sc, t, target, u) == x;
  }
}

=== FILE: telemetry.dfy ===
/** RowAssembler and the trip loop: one telemetry row per tick, in tick
    order (generate_vehicle_data.py:44-157). */
module Telemetry {
  import opened VehicleConstants
  import opened Scenarios
  import opened Driver
  import opened Powertrain
  import opened Thermal
  import opened Trip

  /** One output row. Field order and meaning follow the source's column
      names; the constant columns are the source's placeholders. */
  datatype Row = Row(
    time: int,                 // Time_1s
    driverId: string,          // Driver_ID
    lapId: int,                // LapID
    gpsLongitude: int,         // GPS Longitude
    gpsLatitude: int,          // GPS Latitude
    gpsBearing: int,           // GPS Bearing
    accelTotal: int,           // Accelerometer (Total)
    accelX: int,               // Accelerometer (X)
    accelY: int,               // Accelerometer (Y)
    accelZ: int,               // Accelerometer (Z)
    coolant: real,             // Coolant
    rpm: real,                 // RPM
    altitude: int,             // Altitude(GPS)
    speed: real,               // OBD Speed
    kff1298: int,              // kff1298
    torque: real,              // Torque
    fm: int,                   // F_M
    authorisedClass: string,   // AuthorisedClass
    throttle: real,            // Throttle_Position
    load: real,                // Engine_Load
    intake: real,              // Intake_Air_Temp
    catalyst: real,            // Catalyst_Temperature
    gear: int,                 // Gear
    distance: real)            // Trip_Distance_m

  /** The row emitted at the end of tick `t`, from the state that tick produced. */
  function RowOf(t: nat, s: State): Row
  {
    Row(t, "SimDriver_01", 1, 0, 0, 0, 0, 0, 0, 0,
        s.coolant, s.rpm, 100, s.speed, 0, s.load * 3.0, 0, "Car",
        s.throttle, s.load, s.intake, s.catalyst, s.gear, s.distance)
  }

  /** The ranges every emitted row respects. */
  predicate RowInBounds(row: Row)
  {
    && 0.0 <= row.speed < 200.0
    && IsThrottle(row.throttle)
    && 10.0 <= row.load <= 100.0
    && 30.0 <= row.torque <= 300.0
    && IdleRpm <= row.rpm <= MaxRpm
    && 1 <= row.gear <= TopGear
    && row.coolant <= CoolantTarget + 0.75
    && row.intake >= 20.0
    && row.distance >= 0.0
  }

  /** What the row of tick `t` says, for any trip. */
  lemma EmittedRow(sc: Scenario, draws: seq<Draw>, t: nat)
    requires t < |draws| && ValidDraws(draws)
    ensures var row := RowOf(t, StateAt(sc, draws, t + 1));
            && row.time == t
            && RowInBounds(row)
            && (!WrongGearAnomaly(sc, row.speed) ==> IsTableGear(row.speed, row.gear))
            && (WrongGearAnomaly(sc, row.speed) ==> row.gear == 1)
            && (sc.Idle? ==> row.speed <= 6.0 && row.gear == 1 && row.rpm <= IdleRpm + 2000.0)
  {
    hide Step;
    StateAtNext(sc, draws, t);
  }

  /** `rows` are the rows of the first `|rows|` ticks of the trip. */
  predicate Emits(sc: Scenario, draws: seq<Draw>, rows: seq<Row>)
    requires |rows| <= |draws| && ValidDraws(draws)
  {
    forall t :: 0 <= t < |rows| ==> rows[t] == RowOf(t, StateAt(sc, draws, t + 1))
  }

  /** `simulate_trip(duration, scenario)`: runs `duration` ticks (none when it
      is not positive), tick `t` consuming `draws[t]`, and returns the row of
      each tick, in tick order. The scenario is the `Parse` of the caller's
      tag, hence canonical. */
  method Simulate(sc: Scenario, duration: int, draws: seq<Draw>) returns (rows: seq<Row>)
    requires Canonical(sc) && duration <= |draws| && ValidDraws(draws)
    ensures |rows| == if duration > 0 then duration else 0
    ensures Emits(sc, draws, rows)
    ensures forall t :: 0 <= t < |rows| ==> rows[t].time == t
  {
    // Only the contracts of Step, StateAt and the two lemmas on StateAt are needed here.
    hide Step, StateAt, Inv, ScenarioInv;
    var n := if duration > 0 then duration else 0;
    var state := Initial;
    StateAtStart(sc, draws);
    rows := [];
    for t := 0 to n
      invariant state == StateAt(sc, draws, t)
      invariant |rows| == t
      invariant Emits(sc, draws, rows)
    {
      StateAtNext(sc, draws, t);
      state := Step(state, t, sc, draws[t]);
      rows := rows + [RowOf(t, state)];
    }
  }

  /** What every trip's rows satisfy: the ranges, the gear table with its
      anomaly, the odometer and coolant never going back, and an idle trip
      staying near standstill. */
  lemma TripRows(sc: Scenario, draws: seq<Draw>, rows: seq<Row>)
    requires |rows| <= |draws| && ValidDraws(draws) && Emits(sc, draws, rows)
    ensures forall t :: 0 <= t < |rows| ==> rows[t].time == t && RowInBounds(rows[t])
    ensures forall i, j :: 0 <= i <= j < |rows| ==> rows[i].distance <= rows[j].distance
    ensures forall i, j :: 0 <= i <= j < |rows| ==> rows[i].coolant <= rows[j].coolant
    ensures forall t :: 0 <= t < |rows| && !WrongGearAnomaly(sc, rows[t].speed) ==>
              IsTableGear(rows[t].speed, rows[t].gear)
    ensures forall t :: 0 <= t < |rows| && WrongGearAnomaly(sc, rows[t].speed) ==> rows[t].gear == 1
    ensures sc.Idle? ==> forall t :: 0 <= t < |rows| ==>
              rows[t].speed <= 6.0 && rows[t].gear == 1 && rows[t].rpm <= IdleRpm + 2000.0
  {
    // Only the contracts of the lemmas below are needed here.
    hide Step, Inv, ScenarioInv, RowInBounds, IsTableGear, WrongGearAnomaly;
    forall t | 0 <= t < |rows|
      ensures rows[t].time == t && RowInBounds(rows[t])
      ensures !WrongGearAnomaly(sc, rows[t].speed) ==> IsTableGear(rows[t].speed, rows[t].gear)
      ensures WrongGearAnomaly(sc, rows[t].speed) ==> rows[t].gear == 1
      ensures sc.Idle? ==> rows[t].speed <= 6.0 && rows[t].gear == 1 && rows[t].rpm <= IdleRpm + 2000.0
    {
      EmittedRow(sc, draws, t);
    }
    forall i, j | 0 <= i <= j < |rows|
      ensures rows[i].distance <= rows[j].distance && rows[i].coolant <= rows[j].coolant
    {
      DistanceNonDecreasing(sc, draws, i + 1, j + 1);
      CoolantNonDecreasing(sc, draws, i + 1, j + 1);
    }
  }
}

=== FILE: thermal.dfy ===
/** ThermalModel: the coolant, intake-air and catalyst temperature tracks
    (generate_vehicle_data.py:109-121). */
module Thermal {
  import opened Numeric

  /** Coolant warm-up target in degrees C. */
  const CoolantTarget: real := 90.0

  /** Coolant after one tick: below the target it warms by 0.05 plus 1/10000
      of the RPM; at or above it, it stays put. */
  function NextCoolant(coolant: real, rpm: real): (r: real)
    // the engine never cools down
    ensures rpm >= 0.0 ==> r >= coolant
    ensures rpm >= 0.0 && coolant < CoolantTarget ==> r > coolant
    ensures coolant >= CoolantTarget ==> r == coolant
    // below the redline a single step overshoots the target by less than 0.75
    ensures coolant < CoolantTarget && rpm <= 7000.0 ==> r < CoolantTarget + 0.75
  {
    if coolant < CoolantTarget then
      coolant + 0.05 + (rpm / 10000.0)
    else
      coolant
  }

  /** Intake air temperature: 20 C ambient plus heat soak from the coolant,
      less airflow cooling with speed, never below ambient. */
  function IntakeTemp(coolant: real, speed: real): (r: real)
    ensures r >= 20.0
    ensures r >= 20.0 + (coolant * 0.1) - (speed * 0.05)
    // airflow never heats the intake beyond the standstill heat soak
    ensures speed >= 0.0 && coolant >= 0.0 ==> r <= 20.0 + coolant * 0.1
    // above ambient, the soak-minus-airflow formula holds exactly
    ensures r > 20.0 ==> r == 20.0 + (coolant * 0.1) - (speed * 0.05)
  {
    Max(20.0, 20.0 + (coolant * 0.1) - (speed * 0.05))
  }

  /** The temperature the catalyst tends to at the given RPM and load. */
  function CatalystTarget(rpm: real, load: real): real
  {
    400.0 + (rpm * 0.05) + (load * 2.0)
  }

  /** Catalyst temperature after one tick: it closes 1% of the gap to its target. */
  function NextCatalyst(catalyst: real, rpm: real, load: real): (r: real)
    ensures Min(catalyst, CatalystTarget(rpm, load)) <= r <= Max(catalyst, CatalystTarget(rpm, load))
    ensures CatalystTarget(rpm, load) - r == 0.99 * (CatalystTarget(rpm, load) - catalyst)
  {
    var target := CatalystTarget(rpm, load);
    catalyst + (target - catalyst) * 0.01
  }

  /** The catalyst target over the engine's operating range. */
  lemma CatalystTargetRange(rpm: real, load: real)
    ensures 800.0 <= rpm <= 7000.0 && 10.0 <= load <= 100.0 ==>
              460.0 <= CatalystTarget(rpm, load) <= 950.0
  {
  }
}

=== FILE: trip.dfy ===
/** TripSimulator: the per-tick state, one tick of the simulation as a pure
    function of the previous state and that tick's random draws, and the
    state after any number of ticks (generate_vehicle_data.py:32-124). */
module Trip {
  import opened Numeric
  import opened VehicleConstants
  import opened Scenarios
  import opened Driver
  import opened Powertrain
  import opened Thermal

  /** The simulator's local variables between two ticks (speed in km/h,
      temperatures in C, distance in m). */
  datatype State = State(
    speed: real,
    target: real,
    throttle: real,
    load: real,
    rpm: real,
    gear: int,
    coolant: real,
    intake: real,
    catalyst: real,
    distance: real)

  /** The three unit draws one tick may consume: the target-speed resample,
      the throttle jitter and the load noise. A tick that takes a branch
      without a draw leaves its draw unused. */
  datatype Draw = Draw(target: real, throttle: real, load: real)
  {
    predicate Valid()
    {
      IsUnit(target) && IsUnit(throttle) && IsUnit(load)
    }
  }

  predicate ValidDraws(draws: seq<Draw>)
  {
    forall k :: 0 <= k < |draws| ==> draws[k].Valid()
  }

  /** The state before the first tick: stopped at idle with a cold engine.
      `gear` is unbound before the first tick in the source; 1 stands in for
      it and, like `rpm`, `load` and `intake`, is overwritten before it is read. */
  const Initial: State := State(0.0, 0.0, 0.0, 15.0, IdleRpm, 1, 25.0, 20.0, 100.0, 0.0)

  /** The ranges every state of a trip lies in. */
  predicate Inv(s: State)
  {
    && 0.0 <= s.speed < 200.0
    && 0.0 <= s.target <= 120.0
    && IsThrottle(s.throttle)
    && 10.0 <= s.load <= 100.0
    && IdleRpm <= s.rpm <= MaxRpm
    && 1 <= s.gear <= TopGear
    && 25.0 <= s.coolant <= CoolantTarget + 0.75
    && s.intake >= 20.0
    && 100.0 <= s.catalyst <= 950.0
    && s.distance >= 0.0
  }

  /** One tick `t` of the simulation loop, steps 1 to 7. */
  function Step(s: State, t: nat, sc: Scenario, d: Draw): (r: State)
    requires d.Valid()
    ensures Inv(s) ==> Inv(r)
    // the target is redrawn on whole minutes only, within the scenario's range
    ensures t % ResamplePeriod != 0 ==> r.target == s.target
    ensures t % ResamplePeriod == 0 ==> InTargetRange(sc, r.target)
    // the gear follows the table unless the wrong-gear anomaly forces 1st
    ensures !WrongGearAnomaly(sc, r.speed) ==> IsTableGear(r.speed, r.gear)
    ensures WrongGearAnomaly(sc, r.speed) ==> r.gear == 1
    // the lugging override never applies
    ensures !Lugging(sc, r.speed, r.gear)
    // the odometer and the coolant never go back
    ensures s.distance <= r.distance
    ensures Inv(s) ==> s.coolant <= r.coolant
    // the catalyst moves towards the target its new RPM and load set
    ensures Min(s.catalyst, CatalystTarget(r.rpm, r.load)) <= r.catalyst
            <= Max(s.catalyst, CatalystTarget(r.rpm, r.load))
  {
    var target := NextTarget(sc, t, s.target, d.target);
    var throttle := NextThrottle(sc, s.speed, target, s.throttle, d.throttle);
    var speed := NextSpeed(s.speed, throttle);
    var gear := SelectGear(sc, speed);
    var rpm := Rpm(speed, gear, throttle);
    var load := EngineLoad(sc, speed, gear, throttle, d.load);
    var coolant := NextCoolant(s.coolant, rpm);
    var intake := IntakeTemp(coolant, speed);
    var catalyst := NextCatalyst(s.catalyst, rpm, load);
    var distance := s.distance + KphToMs(speed);
    LuggingNeverFires(sc, speed);
    CatalystTargetRange(rpm, load);
    State(speed, target, throttle, load, rpm, gear, coolant, intake, catalyst, distance)
  }

  /** What a trip in scenario `sc` keeps true after `t` ticks: from the first
      tick on the target lies in the scenario's range, and an idle trip never
      leaves 1st gear, 6 km/h or 2800 rpm. */
  predicate ScenarioInv(sc: Scenario, t: nat, s: State)
  {
    && (t >= 1 ==> InTargetRange(sc, s.target))
    && (sc.Idle? ==>
          && s.target == 0.0
          && s.speed <= 6.0
          && (t >= 1 ==> s.gear == 1 && s.rpm <= IdleRpm + 2000.0))
  }

  /** A trip starts inside its invariants. */
  lemma InitialInv(sc: Scenario)
    ensures Inv(Initial) && ScenarioInv(sc, 0, Initial)
  {
  }

  /** One tick keeps the scenario's invariant. */
  lemma StepKeepsScenarioInv(s: State, t: nat, sc: Scenario, d: Draw)
    requires Inv(s) && d.Valid() && ScenarioInv(sc, t, s)
    ensures ScenarioInv(sc, t + 1, Step(s, t, sc, d))
  {
    var r := Step(s, t, sc, d);
    if t % ResamplePeriod != 0 {
      assert t >= 1;
      assert r.target == s.target;
    }
    if sc.Idle? {
      IdleStep(s, t, d);
    }
  }

  /** The state after the first `t` ticks of a trip in scenario `sc`, tick `k`
      consuming `draws[k]`. */
  function StateAt(sc: Scenario, draws: seq<Draw>, t: nat): (s: State)
    requires t <= |draws| && ValidDraws(draws)
    ensures Inv(s)
    ensures ScenarioInv(sc, t, s)
    decreases t
  {
    // Only the contracts of Step and of the lemmas below are needed here.
    hide Step, Inv, ScenarioInv;
    if t == 0 then
      InitialInv(sc);
      Initial
    else
      var prev := StateAt(sc, draws, t - 1);
      StepKeepsScenarioInv(prev, t - 1, sc, draws[t - 1]);
      Step(prev, t - 1, sc, draws[t - 1])
  }

  /** A trip starts from the initial state. */
  lemma StateAtStart(sc: Scenario, draws: seq<Draw>)
    requires ValidDraws(draws)
    ensures StateAt(sc, draws, 0) == Initial
  {
  }

  /** The state after tick `t` is `Step` applied to the state before it. */
  lemma StateAtNext(sc: Scenario, draws: seq<Draw>, t: nat)
    requires t < |draws| && ValidDraws(draws)
    ensures StateAt(sc, draws, t + 1) == Step(StateAt(sc, draws, t), t, sc, draws[t])
  {
  }

  /** Distance covered never decreases over a trip. */
  lemma {:induction false} DistanceNonDecreasing(sc: Scenario, draws: seq<Draw>, i: nat, j: nat)
    requires i <= j <= |draws| && ValidDraws(draws)
    ensures StateAt(sc, draws, i).distance <= StateAt(sc, draws, j).distance
    decreases j
  {
    // Only the contract of Step is needed; its body would only slow the proof.
    hide Step;
    if i < j {
      DistanceNonDecreasing(sc, draws, i, j - 1);
      StateAtNext(sc, draws, j - 1);
    }
  }

  /** The coolant never cools down over a trip. */
  lemma {:induction false} CoolantNonDecreasing(sc: Scenario, draws: seq<Draw>, i: nat, j: nat)
    requires i <= j <= |draws| && ValidDraws(draws)
    ensures StateAt(sc, draws, i).coolant <= StateAt(sc, draws, j).coolant
    decreases j
  {
    hide Step;
    if i < j {
      CoolantNonDecreasing(sc, draws, i, j - 1);
      StateAtNext(sc, draws, j - 1);
    }
  }

  /** One idle tick from a state at most 6 km/h with a zero target. */
  lemma IdleStep(s: State, t: nat, d: Draw)
    requires Inv(s) && d.Valid()
    requires s.target == 0.0 && s.speed <= 6.0
    ensures var r := Step(s, t, Idle, d);
            && r.target == 0.0
            && r.speed <= 6.0
            && r.gear == 1
            && r.rpm <= IdleRpm + 2000.0
  {
    var r := Step(s, t, Idle, d);
    assert r.target == 0.0;
    assert r.speed <= 6.0 by {
      if s.speed > 5.0 {
        assert r.throttle == 0.0;
      } else if r.throttle > 0.0 {
        assert r.speed - s.speed <= r.throttle / 100.0;
      }
    }
    TableGearBands(r.speed);
    assert r.gear == 1;
    if r.speed >= 1.0 {
      GearingIsLinear(r.speed, 1);
      assert GearingRpm(r.speed, 1) < IdleRpm;
    }
  }

  /** A highway car that has reached 74.5 km/h never drops below it again.
      The target never falls below 80 km/h, so below 75 km/h the driver is
      always more than 5 km/h behind it and keeps the pedal down. At or above
      75 km/h, one tick loses at most the 0.5 km/h of coasting. */
  lemma HighwayFloor(s: State, t: nat, d: Draw)
    requires Inv(s) && d.Valid() && t >= 1 && ScenarioInv(Highway, t, s)
    requires s.speed >= 74.5
    ensures Step(s, t, Highway, d).speed >= 74.5
  {
    var r := Step(s, t, Highway, d);
    assert 80.0 <= r.target <= 120.0;
  }

  /** Over a highway trip, once the speed is at least 74.5 km/h after some
      tick, it stays at least 74.5 km/h after every later tick. */
  lemma {:induction false} HighwaySpeedFloor(draws: seq<Draw>, i: nat, j: nat)
    requires 1 <= i <= j <= |draws| && ValidDraws(draws)
    ensures StateAt(Highway, draws, i).speed >= 74.5 ==> StateAt(Highway, draws, j).speed >= 74.5
    decreases j
  {
    // Only the contracts of Step, StateAt and the lemmas are needed here.
    hide Step, Inv, ScenarioInv;
    if i < j && StateAt(Highway, draws, i).speed >= 74.5 {
      HighwaySpeedFloor(draws, i, j - 1);
      StateAtNext(Highway, draws, j - 1);
      HighwayFloor(StateAt(Highway, draws, j - 1), j - 1, draws[j - 1]);
    }
  }

  /** Below 75 km/h a highway car's next speed does not depend on the draws.
      The target, old or redrawn, is at least 80 km/h, so the throttle takes
      its behind-target branch, which draws nothing. The target and load draws
      do not reach the speed. */
  lemma HighwayClimbIgnoresDraws(s: State, t: nat, d1: Draw, d2: Draw)
    requires Inv(s) && d1.Valid() && d2.Valid()
    requires t % ResamplePeriod != 0 ==> 80.0 <= s.target <= 120.0
    requires s.speed < 75.0
    ensures Step(s, t, Highway, d1).speed == Step(s, t, Highway, d2).speed
  {
    assert 80.0 <= Step(s, t, Highway, d1).target && 80.0 <= Step(s, t, Highway, d2).target;
  }
}
